=== FILE: README.md ===
# Conference-site decision rules, modelled in Dafny

The EuroPython conference site's `pycon/settings.py` is mostly Django
configuration. It also holds a few decision functions. This project models
those functions once their database, cache and HTTP collaborators are
replaced by explicit inputs:

- **Live-stream routing** (`LiveStream`).
  - `P3_LIVE_REDIRECT_URL` sends on-site requesters to the internal streaming
    server. The requester is on site when the address starts with one of
    `P3_LIVE_INTERNAL_IPS`. The protocol is picked from the user agent. Off-site
    requesters get the public watch page of the track.
  - `P3_LIVE_EMBED` checks that exactly one of track and event is given and
    resolves an event to a track. On site it builds the player values. Off
    site it serves the oEmbed markup through a one-entry-per-track cache.
    The cache is a `map<string, string>` threaded through the calls.
    The oEmbed request is an input (`FetchOutcome`).
    `ServeEmbeds` runs a sequence of off-site calls through one shared cache.
- **Ticket filter** (`Tickets`). `CONFERENCE_TICKETS` keeps the tickets of one
  edition that were bought in a completed order. Tickets can also be narrowed
  by ticket type and by fare code. A fare code ending in `%` is a prefix.
- **Voting** (`Voting`).
  - `CONFERENCE_VOTING_OPENED`: superusers, or anyone while the voting
    window is open.
  - `CONFERENCE_VOTING_ALLOWED`: a first-match-wins ladder over user,
    speaker and ticket records. Its contract is equivalent to a declarative
    statement of the rules.
  - The unseen manager query `available(user, conf)` is an arbitrary
    predicate parameter.
- **Start-up settings** (`Hosts`, `MediaRoot`).
  - `ALLOWED_HOSTS` splits the configured value on `,` and strips each
    piece.
  - The `SECURE_MEDIA_ROOT`/`MEDIA_ROOT` check uses `os.path.commonprefix`.
- `Records` holds the database records and the conference constants.
  `Base` holds `Option`, `Result`, the escaping exceptions and string tests.

Python falsiness is modelled explicitly. An absent or empty `track`,
`ticket_type` or `fare_code` is written `""`. A given event is `Some(...)`.
Uncaught exceptions are `Err(KeyError)`, `Err(IndexError)` or
`Err(ValueError)`.

Three behaviours of the code that a reader might not expect:
- `P3_LIVE_REDIRECT_URL` takes only a track. It has no "track or event"
  argument check; only `P3_LIVE_EMBED` has one.
- On site, `P3_LIVE_REDIRECT_URL` does not guard its lookups. An unknown track
  or a missing `User-Agent` header raises `KeyError` instead of yielding
  no URL.
- An oEmbed document without an `html` member raises `KeyError`, because that
  lookup sits outside the `try`.

## Model

| member | source | states |
|---|---|---|
| `Base.Contains` | pycon/settings.py:875-877 | substring search (what `re.search` with a literal pattern does) is true exactly when the pattern occurs at some index |
| `Base.LowerChar` | pycon/settings.py:875-877 | one character under `re.I`: the result is never an upper-case ASCII letter, an upper-case letter becomes its lower-case form, and every other character is kept |
| `Base.Lower` | pycon/settings.py:875-877 | the `re.I` flag: the lower-cased text has the input's length, and each character is its input character lower-cased (an upper-case ASCII letter moved by 32, anything else kept) |
| `Base.CountWhere` | pycon/settings.py:636-642 | `filter(...).count() > 0` as the voting rules use it (also at pycon/settings.py:651-660 and 671-687): the count never exceeds the number of records and is positive exactly when some record passes the filter |
| `LiveStream.MatchesAnyPrefix` | pycon/settings.py:862-866 | the loop over internal prefixes finds a match exactly when the address starts with one of them |
| `LiveStream.InternalSurvivesExtension` | pycon/settings.py:903-907 | classification depends only on how the address begins: an internal address stays internal whatever follows |
| `LiveStream.ContainmentIsNotEnough` | pycon/settings.py:812 | an internal prefix inside the address (`192.10.3.3.1`) does not make it internal; at the start (`10.3.3.1`) it does |
| `LiveStream.SchemeFor` | pycon/settings.py:875-880 | Android agents get RTSP; otherwise iPhone/iPad/iPod agents get HLS; everything else gets RTMP |
| `LiveStream.SchemeIgnoresCase` | pycon/settings.py:875-877 | the protocol choice is the same for a user agent and its lower-cased form (the `re.I` flag) |
| `LiveStream.AndroidWinsOverApple` | pycon/settings.py:875-878 | an agent naming both Android and an Apple device gets RTSP |
| `LiveStream.RedirectUrl` | pycon/settings.py:861-887 | raises `KeyError` exactly when on site with no user agent or an unknown track; yields no URL exactly when off site with an unknown track; off site a known track gives the watch page of its external id; on site the link is `server/path` in the agent's protocol |
| `LiveStream.ExternalRedirectNamesVideo` | pycon/settings.py:881-887 | off site, every URL is the watch-page prefix followed by exactly the track's external id, and the call never raises |
| `LiveStream.RSplitLast` | pycon/settings.py:917 | `rsplit('/', 1)` finds a split exactly when the separator occurs; the pieces rejoin to the input and the tail has no separator |
| `LiveStream.StreamNameIsLastSegment` | pycon/settings.py:911-917 | the text after the last `/` of `server/path` is the last segment of the path, whatever the server is |
| `LiveStream.ResolveTrack` | pycon/settings.py:893-901 | `ValueError` exactly when both or neither of track and event are given; a keynote or multi-track event goes to `track2`; a one-track event goes to its track; an event with no tracks that is not tagged `keynote` raises `IndexError` |
| `LiveStream.ResolvedTrackBelongsToEvent` | pycon/settings.py:896-901 | a resolved event track is the keynote track or one of the event's tracks, and the only failure is an event without tracks |
| `LiveStream.InternalEmbed` | pycon/settings.py:909-919 | an unknown track has no player; a known one never raises, and its stream name is the last segment of the track's internal path |
| `LiveStream.RedirectAgreesWithPlayer` | pycon/settings.py:873-880 | on site, the redirect is the player's own address in the protocol the user agent selects, so redirect and player use the same url |
| `LiveStream.CacheKeyInjective` | pycon/settings.py:965 | different tracks never share a cache key |
| `LiveStream.ExternalEmbed` | pycon/settings.py:964-986 | a cache hit returns the entry without fetching; an unknown track gives nothing; a failed fetch gives nothing and caches nothing; a document without `html` raises `KeyError`; a success stores the markup under the track's key, adds only that key and returns the markup; a fetch happens exactly on a miss for a known track |
| `LiveStream.LiveEmbed` | pycon/settings.py:890-986 | the argument check comes first, and its error (or the `IndexError` of an event without tracks) leaves the cache untouched; on site, for the resolved track (the given one, or the one the event resolves to), the cache and the network are never touched and the result is the player built from the track table, or no player for an unknown track; off site, a cached entry for the resolved track is served as is, with no fetch; off site, a miss for an unknown track gives no embed without a fetch, and a miss for a known track is fetched: a failed fetch gives no embed and caches nothing, a document without `html` raises `KeyError`, and fetched markup is both returned and stored under the track's key; no call overwrites a cache entry; the only cache change is adding the resolved track's key after a fetch |
| `LiveStream.KeynoteOnSite` | pycon/settings.py:896-899 | on site, a keynote always plays the `track2` stream: the stream name `lasagne` at `live.ep:1935/live/lasagne` |
| `LiveStream.SecondEmbedIsCached` | pycon/settings.py:965-967 | once a call has served markup, a repeat call returns the same markup, makes no fetch and leaves the cache as it is |
| `LiveStream.FailedFetchIsRetried` | pycon/settings.py:980-984 | a failed fetch yields nothing and leaves the cache unchanged, so the next call for the track fetches again |
| `LiveStream.StepShape` | pycon/settings.py:965-986 | one off-site call keeps every entry, serves markup only from the cache it leaves behind, and changes the cache only by adding the track's key after a fetch |
| `LiveStream.ServeEmbeds` | pycon/settings.py:965-986 | over any run of off-site calls: entries are never overwritten; the number of stores equals the number of new keys, at most the number of fetches; new keys belong to requested tracks; all markup served is what the final cache holds for that track |
| `Tickets.ConferenceTickets` | pycon/settings.py:572-584 | the result has at most as many tickets as the input, and every ticket in it is an input ticket; each has the requested edition and a completed order; it has the ticket type when one is given; its code starts with the stem when the fare code ends in `%`, and equals the fare code otherwise; and a ticket is in the result exactly when it is an input ticket passing every filter |
| `Tickets.WildcardMeansPrefix` | pycon/settings.py:580-581 | with a trailing `%`, a code matches exactly when it is the stem followed by some rest |
| `Tickets.LoneWildcardMatchesAll` | pycon/settings.py:579-581 | the fare code `%` matches every code |
| `Tickets.ConferenceTicketsAppend` | pycon/settings.py:575-584 | the filter works ticket by ticket: filtering a concatenation is concatenating the filtered parts, so input order is kept |
| `Tickets.ConferenceTicketsIdempotent` | pycon/settings.py:575-584 | filtering the result again with the same arguments changes nothing |
| `Tickets.TicketTypeNarrows` | pycon/settings.py:577-578 | giving a ticket type only removes tickets from the result |
| `Voting.VotingOpened` | pycon/settings.py:587-600 | superusers may always open the voting page; anyone else exactly while the voting window is open |
| `Voting.SpeakerRule` | pycon/settings.py:633-643 | the speaker count is positive exactly when the user's speaker record is linked to a talk of `ep2019`; a missing speaker record means "not a speaker" |
| `Voting.AssignedRule` | pycon/settings.py:645-660 | the assigned-ticket count is positive exactly when some ticket of an eligible edition has a conference profile assigned to the user's email |
| `Voting.LegacyRule` | pycon/settings.py:668-687 | walking the editions in order finds a ticket exactly when, for some edition, the manager makes available a ticket that is paid or admin-created and is unassigned, assigned to nobody, or assigned to this user |
| `Voting.VotingAllowed` | pycon/settings.py:623-688 | anonymous users never vote, even with the superuser flag; authenticated superusers always vote; otherwise a user votes exactly when authenticated and a current speaker, or holding an assigned eligible ticket, or holding a legacy ticket |
| `Voting.SuperuserMayAlwaysVote` | pycon/settings.py:628-631 | an authenticated superuser may both open the page and vote, whatever the window and the records say |
| `Voting.MoreDataNeverRevokes` | pycon/settings.py:623-688 | adding talks or tickets never takes the right to vote away |
| `Voting.ForeignAssignmentDoesNotCount` | pycon/settings.py:679-683 | under the legacy rule, a ticket assigned to another non-empty email grants nothing |
| `Voting.NoRecordsNoVote` | pycon/settings.py:623-688 | a non-superuser with no speaker record and no tickets may not vote |
| `Hosts.Split` | pycon/settings.py:47 | `split(',')` gives one more piece than there are separators; no piece holds the separator; joining the pieces gives the input back |
| `Hosts.SplitJoin` | pycon/settings.py:47 | splitting undoes joining separator-free pieces |
| `Hosts.Strip` | pycon/settings.py:47 | `strip()` removes only whitespace from both ends, and the result neither starts nor ends with whitespace |
| `Hosts.StripTrimmed` | pycon/settings.py:47 | stripping a string that does not start or end with whitespace leaves it unchanged |
| `Hosts.StripIdempotent` | pycon/settings.py:47 | stripping twice is stripping once |
| `Hosts.AllowedHosts` | pycon/settings.py:44-48 | one host per comma-separated piece; no host holds a comma or starts or ends with whitespace; each host is its piece minus whitespace padding |
| `Hosts.DefaultAllowsAll` | pycon/settings.py:44-48 | the default value `*` gives the host list `["*"]` |
| `Hosts.AllowedHostsRoundTrip` | pycon/settings.py:44-48 | a non-empty list of comma-free, trimmed hosts, written comma-separated, parses back to itself |
| `MediaRoot.CommonPrefix` | pycon/settings.py:1009 | `os.path.commonprefix` of two paths is a prefix of both and cannot be extended |
| `MediaRoot.SecureMediaCheck` | pycon/settings.py:1009-1014 | the check fires exactly when `MEDIA_ROOT` is a character prefix of `SECURE_MEDIA_ROOT`; it raises `RuntimeError` outside debug mode and only warns in debug mode |
| `MediaRoot.SecureMediaCheckByPath` | pycon/settings.py:1006-1012 | the check the comment describes fires exactly when the secure root is the media root or lies below it; when it fires, it gives the same outcome as the check as written |
| `MediaRoot.SiblingIsRefusedAsWritten` | pycon/settings.py:1009-1012 | a sibling whose name only extends the media root's name (`/srv/media-private`) is refused by the check as written, but passes the path-wise check |
| `MediaRoot.SiblingExample` | pycon/settings.py:1009-1012 | `/srv/media` and `/srv/media-private` raise `RuntimeError` although the second is not inside the first |
| `MediaRoot.ConfiguredRootsPass` | pycon/settings.py:115-116 | with the configured `DATA_DIR/media_public` and `DATA_DIR/media_private`, neither check fires, whatever `DATA_DIR` is |

## Left out

- The HTML and JavaScript text of the on-site player (pycon/settings.py:920-962). The model keeps only the values filled into it: `Player(track, stream, url)`. The RTSP, HLS and RTMP links come from `Link` on that url.
- The HTTP request to the oEmbed endpoint and its JSON decoding (pycon/settings.py:975-984) are I/O. Their outcome is the `FetchOutcome` input.
- LiveStream.ExternalEmbed: the `html` member is modelled as a string. Two cases are not modelled:
  - a JSON document that is not an object (Python raises `TypeError`, not `KeyError`);
  - an `html` member that is JSON `null` (it would be cached as `None`, so the next call misses again).
- The 3600-second expiry of cache entries needs a clock. Entries never expire in the model.
- Concurrent requests sharing the cache are not modelled. `ServeEmbeds` serves calls one at a time.
- `conf.voting()` reads the clock. It enters the model as the precomputed `Conference.votingOpen`.
- `TicketConference.objects.available(user, conf)` is not part of this model. It is the `Availability` parameter, and nothing is assumed about it.
- Query mechanics of the ORM are not modelled:
  - Querysets are sequences in input order. The database's row order is unspecified.
  - Each ticket has exactly one order.
  - The `startswith` lookup is case-sensitive in the model. Some database backends compare without case.
- `re.I` and `str.strip()` follow Unicode rules. The model lowercases ASCII letters only and strips ASCII whitespace only.
- `CONFERENCE_SCHEDULE_ATTENDEES` (pycon/settings.py:691-708) depends on `p3.stats.presence_days`, which is not part of this model.
- `CONFERENCE_TICKET_BADGE_PREPARE_FUNCTION` (pycon/settings.py:727-730) passes the tickets to `p3.utils.conference_ticket_badge`, which is not part of this model.
- The code after early returns never runs, so it is left out:
  - pycon/settings.py:602-620;
  - `CONFERENCE_TALK_VIDEO_ACCESS` (always `True`);
  - `ASSOPY_ORDERITEM_CAN_BE_REFUNDED` (returns `user.is_superuser`).
- `event['tags']` is taken to be a collection of tag names, so `'keynote' in event['tags']` (pycon/settings.py:898) is membership in `Event.tags`. Given the raw tag string instead, Python would do a substring test.
- `request.META['REMOTE_ADDR']` (pycon/settings.py:864, 905) is assumed present: `Request.remoteAddr` is a string. Without it, both routing functions would raise `KeyError`.
- The declarative settings are configuration, not behaviour: databases, templates, middleware, installed apps, logging, CMS, payment keys.
- Reads of environment variables through `decouple.config`, `dj_database_url` and `reverse_lazy`. Values that matter enter as parameters: the `ALLOWED_HOSTS` string, `DEBUG`, `DATA_DIR`.
- Import-time side effects: directory creation, `sys.path` edits, `print`, and the optional `settings_locale` import.

## Findings

| source | as written | input that shows it | evidently intended | confidence | as-written member | corrected member |
|---|---|---|---|---|---|---|
| pycon/settings.py:1009-1012 | `os.path.commonprefix` compares characters, so the check fires whenever `MEDIA_ROOT` is a character prefix of `SECURE_MEDIA_ROOT` | `MEDIA_ROOT=/srv/media`, `SECURE_MEDIA_ROOT=/srv/media-private`, `DEBUG` off: `RuntimeError`, though the secure root is a sibling, not a sub-directory | refuse only a secure root equal to or inside the media root, comparing path components (the comment and error message speak of a subdir) | medium; not executed; the configured roots are unaffected (`ConfiguredRootsPass`) | `MediaRoot.SecureMediaCheck`, `MediaRoot.SiblingIsRefusedAsWritten`, `MediaRoot.SiblingExample` | `MediaRoot.SecureMediaCheckByPath` |

=== FILE: base.dfy ===
/**
 Shared vocabulary of the model: optional values, the Python exceptions the
 settings functions can let escape, and the string tests they are built from
 (`str.startswith`, `str.endswith`, substring search, ASCII lower-casing).
 */
module Base {

  /** `None` or a value, as Python's `None`-or-object results. */
  datatype Option<T> = None | Some(value: T)

  /** The exceptions that escape the modelled functions. */
  datatype Error = KeyError | IndexError | ValueError | RuntimeError

  /** A returned value, or the exception the call raises. */
  datatype Result<T> = Ok(value: T) | Err(error: Error)

  /** `s.startswith(prefix)` */
  predicate StartsWith(s: string, prefix: string)
  {
    |prefix| <= |s| && s[..|prefix|] == prefix
  }

  /** `s.endswith(suffix)` */
  predicate EndsWith(s: string, suffix: string)
  {
    |suffix| <= |s| && s[|s| - |suffix|..] == suffix
  }

  /** `p` occurs in `s` starting at index `i`. */
  predicate OccursAt(s: string, p: string, i: int)
  {
    0 <= i && i + |p| <= |s| && s[i..i + |p|] == p
  }

  /** Substring search (`p in s`, or `re.search` with a literal pattern),
      scanning left to right. */
  function Contains(s: string, p: string): (b: bool)
    ensures b <==> exists i :: OccursAt(s, p, i)
    decreases |s|
  {
    if StartsWith(s, p) then
      assert OccursAt(s, p, 0);
      true
    else if |s| == 0 then
      assert forall i :: OccursAt(s, p, i) ==> i == 0;
      false
    else
      var b := Contains(s[1..], p);
      assert forall i :: OccursAt(s[1..], p, i) ==> OccursAt(s, p, i + 1) by {
        forall i | OccursAt(s[1..], p, i) ensures OccursAt(s, p, i + 1) {
          assert s[i + 1..i + 1 + |p|] == s[1..][i..i + |p|];
        }
      }
      assert forall i :: OccursAt(s, p, i) ==> i == 0 || OccursAt(s[1..], p, i - 1) by {
        forall i | OccursAt(s, p, i) && i != 0 ensures OccursAt(s[1..], p, i - 1) {
          assert s[1..][i - 1..i - 1 + |p|] == s[i..i + |p|];
        }
      }
      b
  }

  predicate IsUpper(c: char)
  {
    'A' <= c <= 'Z'
  }

  /** ASCII lower-casing of one character. */
  function LowerChar(c: char): (d: char)
    ensures !IsUpper(d)
    ensures IsUpper(c) ==> d as int == c as int + 32
    ensures !IsUpper(c) ==> d == c
  {
    if IsUpper(c) then (c as int + 32) as char else c
  }

  /** ASCII lower-casing of a string; the case-insensitive flag `re.I` is
      modelled as searching the lower-cased subject for a lower-case pattern. */
  function Lower(s: string): (r: string)
    ensures |r| == |s|
    ensures forall i :: 0 <= i < |s| ==> r[i] == LowerChar(s[i])
  {
    seq(|s|, i requires 0 <= i < |s| => LowerChar(s[i]))
  }

  /** Case-insensitive search for a pattern written in lower case. */
  predicate ContainsIgnoreCase(s: string, lowerPattern: string)
  {
    Contains(Lower(s), lowerPattern)
  }

  /** The number of elements satisfying `p` (`queryset.filter(p).count()`,
      or the number of occurrences of a character). */
  function CountWhere<T>(xs: seq<T>, p: T -> bool): (n: nat)
    ensures n <= |xs|
    ensures n > 0 <==> exists i :: 0 <= i < |xs| && p(xs[i])
  {
    if |xs| == 0 then 0
    else
      var n := (if p(xs[0]) then 1 else 0) + CountWhere(xs[1..], p);
      assert forall i :: 1 <= i < |xs| ==> xs[i] == xs[1..][i - 1];
      n
  }
}

=== FILE: hosts.dfy ===
/**
 The `ALLOWED_HOSTS` setting: the configured value is split on `,` and each
 piece has surrounding whitespace removed (`[s.strip() for s in v.split(",")]`).
 */
module Hosts {
  import opened Base

  /** The characters `str.strip()` removes that fit in ASCII: space, tab,
      line feed, vertical tab, form feed, carriage return and the four
      separator controls 0x1C-0x1F. */
  predicate IsSpace(c: char)
  {
    c == ' ' || 9 <= c as int <= 13 || 28 <= c as int <= 31
  }

  predicate AllSpace(s: string)
  {
    forall k :: 0 <= k < |s| ==> IsSpace(s[k])
  }

  // ---------------------------------------------------------------------
  // str.split(sep)

  /** The inverse of splitting: the pieces with the separator between them. */
  function Join(parts: seq<string>, sep: char): string
    requires |parts| >= 1
  {
    if |parts| == 1 then parts[0] else parts[0] + [sep] + Join(parts[1..], sep)
  }

  predicate SeparatorFree(parts: seq<string>, sep: char)
  {
    forall i :: 0 <= i < |parts| ==> sep !in parts[i]
  }

  /** `s.split(sep)`: the maximal separator-free pieces between separators.
      There is one more piece than there are separators (an empty string
      gives one empty piece), and joining the pieces gives `s` back. */
  function Split(s: string, sep: char): (parts: seq<string>)
    ensures |parts| == CountWhere(s, (c: char) => c == sep) + 1
    ensures SeparatorFree(parts, sep)
    ensures Join(parts, sep) == s
    decreases |s|
  {
    if |s| == 0 then [""]
    else
      var rest := Split(s[1..], sep);
      if s[0] == sep then
        SplitAtSeparator(s, sep, rest);
        [""] + rest
      else
        SplitAtOther(s, sep, rest);
        [[s[0]] + rest[0]] + rest[1..]
  }

  /** A leading separator closes an empty first piece. */
  lemma SplitAtSeparator(s: string, sep: char, rest: seq<string>)
    requires |s| > 0 && s[0] == sep
    requires |rest| == CountWhere(s[1..], (c: char) => c == sep) + 1
    requires SeparatorFree(rest, sep) && Join(rest, sep) == s[1..]
    ensures |[""] + rest| == CountWhere(s, (c: char) => c == sep) + 1
    ensures SeparatorFree([""] + rest, sep) && Join([""] + rest, sep) == s
  {
  }

  /** Any other first character joins the first piece. */
  lemma SplitAtOther(s: string, sep: char, rest: seq<string>)
    requires |s| > 0 && s[0] != sep
    requires |rest| == CountWhere(s[1..], (c: char) => c == sep) + 1
    requires SeparatorFree(rest, sep) && Join(rest, sep) == s[1..]
    ensures var parts := [[s[0]] + rest[0]] + rest[1..];
            |parts| == CountWhere(s, (c: char) => c == sep) + 1
            && SeparatorFree(parts, sep) && Join(parts, sep) == s
  {
  }

  /** Of two ways to write a string as `x + [sep] + y` with `x` free of the
      separator, there is only one. */
  lemma {:induction false} SplitAtFirstUnique(a: string, b: string, a': string, b': string, sep: char)
    requires a + [sep] + b == a' + [sep] + b'
    requires sep !in a && sep !in a'
    ensures a == a' && b == b'
  {
    var s := a + [sep] + b;
    if |a| < |a'| {
      LongerHeadHoldsSeparator(a, b, a', b', sep);
      assert false;
    } else if |a'| < |a| {
      LongerHeadHoldsSeparator(a', b', a, b, sep);
      assert false;
    } else {
      assert a == s[..|a|] == a';
      assert b == s[|a| + 1..] == b';
    }
  }

  lemma LongerHeadHoldsSeparator(a: string, b: string, a': string, b': string, sep: char)
    requires a + [sep] + b == a' + [sep] + b'
    requires |a| < |a'|
    ensures sep in a'
  {
    var s := a + [sep] + b;
    assert a'[|a|] == s[|a|] == sep;
  }

  lemma JoinSingleHasNoSeparator(parts: seq<string>, sep: char)
    requires |parts| >= 1 && SeparatorFree(parts, sep)
    ensures sep in Join(parts, sep) <==> |parts| > 1
  {
  }

  /** Joining separator-free pieces loses nothing: different piece lists
      join to different strings. */
  lemma {:induction false} JoinInjective(p: seq<string>, q: seq<string>, sep: char)
    requires |p| >= 1 && |q| >= 1
    requires SeparatorFree(p, sep) && SeparatorFree(q, sep)
    requires Join(p, sep) == Join(q, sep)
    ensures p == q
    decreases |p|
  {
    JoinSingleHasNoSeparator(p, sep);
    JoinSingleHasNoSeparator(q, sep);
    if |p| > 1 {
      SplitAtFirstUnique(p[0], Join(p[1..], sep), q[0], Join(q[1..], sep), sep);
      JoinInjective(p[1..], q[1..], sep);
      assert p == [p[0]] + p[1..] && q == [q[0]] + q[1..];
    }
  }

  /** Splitting undoes joining. */
  lemma SplitJoin(parts: seq<string>, sep: char)
    requires |parts| >= 1 && SeparatorFree(parts, sep)
    ensures Split(Join(parts, sep), sep) == parts
  {
    JoinInjective(Split(Join(parts, sep), sep), parts, sep);
  }

  // ---------------------------------------------------------------------
  // str.strip()

  /** The number of leading whitespace characters. */
  function LeadingSpaces(s: string): (n: nat)
    ensures n <= |s| && AllSpace(s[..n])
    ensures n < |s| ==> !IsSpace(s[n])
  {
    if |s| == 0 || !IsSpace(s[0]) then 0
    else
      var n := 1 + LeadingSpaces(s[1..]);
      assert forall k :: 1 <= k < n ==> s[..n][k] == s[1..][..n - 1][k - 1];
      n
  }

  /** The length of `s` without its trailing whitespace. */
  function TrimmedEnd(s: string): (e: nat)
    ensures e <= |s| && AllSpace(s[e..])
    ensures e > 0 ==> !IsSpace(s[e - 1])
  {
    if |s| == 0 || !IsSpace(s[|s| - 1]) then |s|
    else
      var e := TrimmedEnd(s[..|s| - 1]);
      assert forall k :: e <= k < |s| - 1 ==> s[k] == s[..|s| - 1][k];
      e
  }

  /** `s` is `r` with only whitespace added on either side. */
  predicate PaddedBy(s: string, r: string)
  {
    exists i :: 0 <= i && i + |r| <= |s| && s[i..i + |r|] == r && AllSpace(s[..i]) && AllSpace(s[i + |r|..])
  }

  /** A string that neither starts nor ends with whitespace. */
  predicate Trimmed(r: string)
  {
    |r| > 0 ==> !IsSpace(r[0]) && !IsSpace(r[|r| - 1])
  }

  /** `s.strip()`: the text of `s` with the whitespace on both sides cut
      off; what remains neither starts nor ends with whitespace. */
  function Strip(s: string): (r: string)
    ensures PaddedBy(s, r) && Trimmed(r)
  {
    var i := LeadingSpaces(s);
    var e := TrimmedEnd(s[i..]);
    StripCuts(s, i, e);
    s[i..][..e]
  }

  lemma StripCuts(s: string, i: nat, e: nat)
    requires i == LeadingSpaces(s) && e == TrimmedEnd(s[i..])
    ensures PaddedBy(s, s[i..][..e]) && Trimmed(s[i..][..e])
  {
  }

  /** Stripping a piece that neither starts nor ends with whitespace leaves
      it as it is. */
  lemma StripTrimmed(s: string)
    requires Trimmed(s)
    ensures Strip(s) == s
  {
  }

  /** Stripping twice is stripping once. */
  lemma StripIdempotent(s: string)
    ensures Strip(Strip(s)) == Strip(s)
  {
  }

  // ---------------------------------------------------------------------
  // ALLOWED_HOSTS

  /** The host list: one entry per `,`-separated piece, stripped. There is
      one more entry than there are commas; no entry holds a comma or starts
      or ends with whitespace; each entry is its piece minus padding. */
  function AllowedHosts(value: string): (hosts: seq<string>)
    ensures |hosts| == CountWhere(value, (c: char) => c == ',') + 1
    ensures SeparatorFree(hosts, ',')
    ensures forall i :: 0 <= i < |hosts| ==> PaddedBy(Split(value, ',')[i], hosts[i]) && Trimmed(hosts[i])
  {
    var parts := Split(value, ',');
    var hosts := seq(|parts|, i requires 0 <= i < |parts| => Strip(parts[i]));
    forall i | 0 <= i < |hosts| ensures ',' !in hosts[i] {
      PaddingAddsOnlySpace(parts[i], hosts[i], ',');
    }
    hosts
  }

  /** Whatever `r` contains, the padded `s` contains too. */
  lemma PaddingAddsOnlySpace(s: string, r: string, c: char)
    requires PaddedBy(s, r) && c !in s
    ensures c !in r
  {
  }

  /** The default value names every host. */
  lemma DefaultAllowsAll()
    ensures AllowedHosts("*") == ["*"]
  {
    var parts := Split("*", ',');
    assert parts == ["*"];
    StripTrimmed("*");
  }

  /** A list of hosts without commas or surrounding whitespace survives being
      written comma-separated and parsed back. */
  lemma {:induction false} AllowedHostsRoundTrip(hosts: seq<string>)
    requires |hosts| >= 1
    requires SeparatorFree(hosts, ',')
    requires forall i :: 0 <= i < |hosts| ==> Trimmed(hosts[i])
    ensures AllowedHosts(Join(hosts, ',')) == hosts
  {
    SplitJoin(hosts, ',');
    var r := AllowedHosts(Join(hosts, ','));
    forall i | 0 <= i < |hosts| ensures r[i] == hosts[i] {
      StripTrimmed(hosts[i]);
    }
  }
}

=== FILE: live_stream.dfy ===
/**
 Live-stream routing of pycon/settings.py: the static track table, the
 internal/external classification of a requester, the redirect URL
 (`P3_LIVE_REDIRECT_URL`) and the embeddable player (`P3_LIVE_EMBED`) with
 its per-track cache of oEmbed markup.

 The network call to the oEmbed endpoint is not modelled: its outcome is an
 input (`FetchOutcome`), consulted only when the code would make the call.
 The cache is a plain map from cache key to markup, threaded through the
 calls; its one-hour expiry is not modelled.
 */
module LiveStream {
  import opened Base

  // ---------------------------------------------------------------------
  // Configuration

  /** Address prefixes of on-site requesters (`P3_LIVE_INTERNAL_IPS`). */
  const InternalIps: seq<string> := ["2.228.78.", "10.3.3.", "127.0.0.1"]

  /** On-site streaming server (`P3_INTERNAL_SERVER`). */
  const InternalServer: string := "live.ep:1935"

  /** The two stream identifiers of a track: the public video id and the
      path on the on-site server. */
  datatype Stream = Stream(external: string, internal: string)

  /** `P3_LIVE_TRACKS` */
  const Tracks: map<string, Stream> := map[
    "track1" := Stream("WQnU7Qvy-xg", "live/spaghetti"),
    "track2" := Stream("urwOdSH3Tyg", "live/lasagne"),
    "track3" := Stream("tdGKPPlhqAI", "live/ravioli"),
    "track4" := Stream("IeKx5Qy_8lY", "live/tagliatelle"),
    "track-ita" := Stream("JSjXKGom9VI", "live/bigmac"),
    "training1" := Stream("6CG-25uxPdI", "live/pizzamargherita"),
    "training2" := Stream("iy1phHF-mec", "live/pizzanapoli")
  ]

  /** Keynotes and multi-track events are all shown on this track. */
  const KeynoteTrack: string := "track2"
  const KeynoteTag: string := "keynote"

  const WatchPrefix: string := "https://www.youtube.com/watch?v="
  const CachePrefix: string := "p3_live_embed_"

  // ---------------------------------------------------------------------
  // Requests and classification

  /** What the functions read from `request.META`: `REMOTE_ADDR`, and
      `HTTP_USER_AGENT`, which a client may omit. */
  datatype Request = Request(remoteAddr: string, userAgent: Option<string>)

  /** The loop over the prefixes, stopping at the first that matches. */
  function MatchesAnyPrefix(addr: string, prefixes: seq<string>): (b: bool)
    ensures b <==> exists i :: 0 <= i < |prefixes| && StartsWith(addr, prefixes[i])
  {
    if |prefixes| == 0 then false
    else if StartsWith(addr, prefixes[0]) then true
    else
      var b := MatchesAnyPrefix(addr, prefixes[1..]);
      assert forall i :: 1 <= i < |prefixes| ==> prefixes[i] == prefixes[1..][i - 1];
      b
  }

  /** A requester is on site when its address starts with one of the
      internal prefixes. Both routing functions use this test. */
  predicate IsInternal(addr: string)
  {
    MatchesAnyPrefix(addr, InternalIps)
  }

  /** Classification looks only at how the address begins: whatever follows
      an internal prefix, the address stays internal. */
  lemma InternalSurvivesExtension(addr: string, rest: string)
    requires IsInternal(addr)
    ensures IsInternal(addr + rest)
  {
  }

  /** An internal prefix found in the middle of an address does not make it
      internal; at its start it does. */
  lemma ContainmentIsNotEnough()
    ensures Contains("192.10.3.3.1", "10.3.3.") && !IsInternal("192.10.3.3.1")
    ensures IsInternal("10.3.3.1")
  {
    assert OccursAt("192.10.3.3.1", "10.3.3.", 4);
    assert !StartsWith("192.10.3.3.1", InternalIps[0]) by {
      assert "192.10.3.3.1"[0] != InternalIps[0][0];
    }
    assert !StartsWith("192.10.3.3.1", InternalIps[1]) by {
      assert "192.10.3.3.1"[1] != InternalIps[1][1];
    }
    assert !StartsWith("192.10.3.3.1", InternalIps[2]) by {
      assert "192.10.3.3.1"[1] != InternalIps[2][1];
    }
    assert StartsWith("10.3.3.1", InternalIps[1]);
  }

  // ---------------------------------------------------------------------
  // Internal playback links

  /** The three playback protocols of the on-site server. */
  datatype Scheme = Rtsp | Hls | Rtmp

  /** The on-site address of a track: `server/path`. */
  function InternalBase(track: string): string
    requires track in Tracks
  {
    InternalServer + "/" + Tracks[track].internal
  }

  /** The playback link of a protocol for an on-site address. */
  function Link(scheme: Scheme, base: string): string
  {
    match scheme
    case Rtsp => "rtsp://" + base
    case Hls => "http://" + base + "/playlist.m3u8"
    case Rtmp => "rtmp://" + base
  }

  predicate IsAppleDevice(ua: string)
  {
    ContainsIgnoreCase(ua, "iphone") || ContainsIgnoreCase(ua, "ipad") || ContainsIgnoreCase(ua, "ipod")
  }

  /** The protocol chosen from the user agent, tests in order, first match
      wins, ignoring case. */
  function SchemeFor(ua: string): (s: Scheme)
    ensures ContainsIgnoreCase(ua, "android") ==> s == Rtsp
    ensures !ContainsIgnoreCase(ua, "android") && IsAppleDevice(ua) ==> s == Hls
    ensures s == Rtmp <==> !ContainsIgnoreCase(ua, "android") && !IsAppleDevice(ua)
  {
    if ContainsIgnoreCase(ua, "android") then Rtsp
    else if IsAppleDevice(ua) then Hls
    else Rtmp
  }

  lemma LowerIdempotent(s: string)
    ensures Lower(Lower(s)) == Lower(s)
  {
  }

  /** The protocol does not depend on the case of the user agent. */
  lemma {:induction false} SchemeIgnoresCase(ua: string)
    ensures SchemeFor(Lower(ua)) == SchemeFor(ua)
  {
    LowerIdempotent(ua);
  }

  /** An Android agent gets RTSP even when it also names an Apple device. */
  lemma AndroidWinsOverApple(ua: string)
    requires ContainsIgnoreCase(ua, "android") && IsAppleDevice(ua)
    ensures SchemeFor(ua) == Rtsp
  {
  }

  // ---------------------------------------------------------------------
  // P3_LIVE_REDIRECT_URL

  /** The playback URL for a track: on site, a link to the internal server in
      the protocol the user agent suggests; off site, the public watch page.
      Off site an unknown track yields no URL. On site the user agent and
      the track are looked up without a guard: a missing header or an unknown
      track raises `KeyError`. */
  function RedirectUrl(req: Request, track: string): (r: Result<Option<string>>)
    ensures r.Err? <==> IsInternal(req.remoteAddr) && (req.userAgent.None? || track !in Tracks)
    ensures r.Err? ==> r.error == KeyError
    ensures r == Ok(None) <==> !IsInternal(req.remoteAddr) && track !in Tracks
    ensures !IsInternal(req.remoteAddr) && track in Tracks ==>
              r == Ok(Some(WatchPrefix + Tracks[track].external))
    ensures IsInternal(req.remoteAddr) && req.userAgent.Some? && track in Tracks ==>
              r == Ok(Some(Link(SchemeFor(req.userAgent.value), InternalBase(track))))
  {
    if IsInternal(req.remoteAddr) then
      match req.userAgent
      case None => Err(KeyError)
      case Some(ua) =>
        if track !in Tracks then Err(KeyError)
        else
          var base := InternalServer + "/" + Tracks[track].internal;
          if ContainsIgnoreCase(ua, "android") then Ok(Some("rtsp://" + base))
          else if ContainsIgnoreCase(ua, "iphone") || ContainsIgnoreCase(ua, "ipad")
                  || ContainsIgnoreCase(ua, "ipod") then
            Ok(Some("http://" + base + "/playlist.m3u8"))
          else Ok(Some("rtmp://" + base))
    else if track in Tracks then
      Ok(Some(WatchPrefix + Tracks[track].external))
    else
      Ok(None)
  }

  /** Off site, the redirect is a public watch page whose video id is the
      track's external id. */
  lemma ExternalRedirectNamesVideo(req: Request, track: string)
    requires !IsInternal(req.remoteAddr)
    ensures match RedirectUrl(req, track)
            case Ok(Some(url)) =>
              track in Tracks && StartsWith(url, WatchPrefix)
              && url[|WatchPrefix|..] == Tracks[track].external
            case Ok(None) => track !in Tracks
            case Err(_) => false
  {
  }

  // ---------------------------------------------------------------------
  // Splitting off the last path segment (`url.rsplit('/', 1)`)

  /** `s.rsplit(sep, 1)`: the text before and after the last separator, or
      `None` when `s` has no separator (Python then returns a one-element
      list). */
  function RSplitLast(s: string, sep: char): (r: Option<(string, string)>)
    ensures r.None? <==> sep !in s
    ensures r.Some? ==> s == r.value.0 + [sep] + r.value.1 && sep !in r.value.1
    decreases |s|
  {
    if |s| == 0 then None
    else
      var init, last := s[..|s| - 1], s[|s| - 1];
      assert s == init + [last];
      if last == sep then Some((init, []))
      else
        match RSplitLast(init, sep)
        case None => None
        case Some((a, b)) => Some((a, b + [last]))
  }

  /** Of two ways to write one string as `x + [sep] + y`, the one with the
      longer tail has the separator of the other inside that tail. */
  lemma LongerTailHoldsSeparator(a: string, b: string, a': string, b': string, sep: char)
    requires a + [sep] + b == a' + [sep] + b'
    requires |b| < |b'|
    ensures sep in b'
  {
    var s := a + [sep] + b;
    assert b'[|b'| - 1 - |b|] == s[|s| - 1 - |b|] == sep;
  }

  /** Splitting at a separator is unique once the tail holds no separator. */
  lemma {:induction false} SplitAtLastUnique(a: string, b: string, a': string, b': string, sep: char)
    requires a + [sep] + b == a' + [sep] + b'
    requires sep !in b && sep !in b'
    ensures a == a' && b == b'
  {
    var s := a + [sep] + b;
    if |b| < |b'| {
      LongerTailHoldsSeparator(a, b, a', b', sep);
      assert false;
    } else if |b'| < |b| {
      LongerTailHoldsSeparator(a', b', a, b, sep);
      assert false;
    } else {
      assert b == s[|s| - |b|..] == b';
      assert a == s[..|a|] == a';
    }
  }

  lemma {:induction false} RSplitLastJoin(a: string, sep: char, b: string)
    requires sep !in b
    ensures RSplitLast(a + [sep] + b, sep) == Some((a, b))
  {
    var s := a + [sep] + b;
    assert s[|a|] == sep;
    var r := RSplitLast(s, sep);
    SplitAtLastUnique(r.value.0, r.value.1, a, b, sep);
  }

  /** The last `/`-separated segment of a path (the whole path when it has
      no `/`). */
  function LastSegment(path: string): string
  {
    match RSplitLast(path, '/')
    case None => path
    case Some((_, tail)) => tail
  }

  /** Splitting `server/path` at its last `/` gives the last segment of the
      path: the server part never contributes. */
  lemma {:induction false} StreamNameIsLastSegment(server: string, path: string)
    ensures RSplitLast(server + "/" + path, '/').Some?
    ensures RSplitLast(server + "/" + path, '/').value.1 == LastSegment(path)
  {
    match RSplitLast(path, '/')
    case None =>
      RSplitLastJoin(server, '/', path);
    case Some((a, b)) =>
      assert server + "/" + path == (server + "/" + a) + ['/'] + b;
      RSplitLastJoin(server + "/" + a, '/', b);
  }

  // ---------------------------------------------------------------------
  // P3_LIVE_EMBED

  /** A scheduled event: its tags and the tracks it spans. */
  datatype Event = Event(tags: seq<string>, tracks: seq<string>)

  /** The values the on-site player markup is filled with: the track, the
      stream name and the on-site address. */
  datatype Player = Player(track: string, stream: string, url: string)

  /** What an embed call shows: the on-site player, or the markup the
      oEmbed service returned for the public video. */
  datatype Embed = OnSite(player: Player) | Markup(html: string)

  /** Outcome of the oEmbed request, had it been made: a transport or JSON
      failure, or a decoded document with or without an `html` member. */
  datatype FetchOutcome = FetchFailed | Fetched(html: Option<string>)

  /** One embed call: its result, the cache after it, and whether it asked
      the oEmbed service. */
  datatype EmbedStep = EmbedStep(result: Result<Option<Embed>>, cache: map<string, string>, fetched: bool)

  /** Argument check and event resolution. Exactly one of `track` and
      `event` must be given (an empty track is Python-false, like `None`);
      otherwise `ValueError`. A keynote, or an event on several tracks, is
      shown on the keynote track; any other event on its first track, which
      raises `IndexError` when it has none. */
  function ResolveTrack(track: string, event: Option<Event>): (r: Result<string>)
    ensures r == Err(ValueError) <==> (track != "") == event.Some?
    ensures event.None? && track != "" ==> r == Ok(track)
    ensures event.Some? && track == "" ==>
              if KeynoteTag in event.value.tags || |event.value.tracks| > 1 then r == Ok(KeynoteTrack)
              else if |event.value.tracks| == 1 then r == Ok(event.value.tracks[0])
              else r == Err(IndexError)
  {
    if (track != "") == event.Some? then Err(ValueError)
    else if event.Some? then
      var ev := event.value;
      if KeynoteTag in ev.tags || |ev.tracks| > 1 then Ok(KeynoteTrack)
      else if |ev.tracks| == 0 then Err(IndexError)
      else Ok(ev.tracks[0])
    else Ok(track)
  }

  /** A resolved event track is the keynote track or one of the event's own. */
  lemma ResolvedTrackBelongsToEvent(ev: Event)
    ensures match ResolveTrack("", Some(ev))
            case Ok(t) => t == KeynoteTrack || t in ev.tracks
            case Err(e) => e == IndexError && ev.tracks == []
  {
  }

  /** The on-site player for a track; an unknown track has none. The stream
      name is the text after the last `/` of `server/path`; if there were
      no `/`, Python's `rsplit(...)[1]` would raise `IndexError`. */
  function InternalEmbed(track: string): (r: Result<Option<Player>>)
    ensures track !in Tracks ==> r == Ok(None)
    ensures track in Tracks ==>
              r == Ok(Some(Player(track, LastSegment(Tracks[track].internal), InternalBase(track))))
  {
    if track !in Tracks then Ok(None)
    else
      var url := InternalServer + "/" + Tracks[track].internal;
      StreamNameIsLastSegment(InternalServer, Tracks[track].internal);
      match RSplitLast(url, '/')
      case None => Err(IndexError)
      case Some((_, stream)) => Ok(Some(Player(track, stream, url)))
  }

  /** The links on the on-site player are the ones the redirect hands out:
      for every user agent, the redirect is the player's link in the
      protocol that agent selects. */
  lemma {:induction false} RedirectAgreesWithPlayer(req: Request, track: string)
    requires IsInternal(req.remoteAddr) && req.userAgent.Some? && track in Tracks
    ensures InternalEmbed(track).Ok? && InternalEmbed(track).value.Some?
    ensures RedirectUrl(req, track)
            == Ok(Some(Link(SchemeFor(req.userAgent.value), InternalEmbed(track).value.value.url)))
  {
  }

  function CacheKey(track: string): string
  {
    CachePrefix + track
  }

  /** Different tracks never share a cache entry. */
  lemma CacheKeyInjective(t1: string, t2: string)
    requires CacheKey(t1) == CacheKey(t2)
    ensures t1 == t2
  {
    assert t1 == CacheKey(t1)[|CachePrefix|..];
    assert t2 == CacheKey(t2)[|CachePrefix|..];
  }

  /** The off-site branch: a cached entry is returned without asking the
      service; an unknown track has no markup; a failed request yields no
      markup and caches nothing; a document without `html` raises
      `KeyError` (the lookup sits outside the `try`); a successful request
      stores the markup under the track's key, touching no other key. */
  function ExternalEmbed(cache: map<string, string>, track: string, fetch: FetchOutcome): (r: EmbedStep)
    ensures CacheKey(track) in cache ==>
              r == EmbedStep(Ok(Some(Markup(cache[CacheKey(track)]))), cache, false)
    ensures r.fetched <==> CacheKey(track) !in cache && track in Tracks
    ensures CacheKey(track) !in cache && track !in Tracks ==> r.result == Ok(None) && r.cache == cache
    ensures r.fetched && fetch == FetchFailed ==> r.result == Ok(None) && r.cache == cache
    ensures r.fetched && fetch == Fetched(None) ==> r.result == Err(KeyError) && r.cache == cache
    ensures r.fetched && fetch.Fetched? && fetch.html.Some? ==>
              r.result == Ok(Some(Markup(fetch.html.value)))
              && r.cache.Keys == cache.Keys + {CacheKey(track)}
              && r.cache[CacheKey(track)] == fetch.html.value
              && forall k :: k in cache ==> r.cache[k] == cache[k]
  {
    var key := CacheKey(track);
    if key in cache then EmbedStep(Ok(Some(Markup(cache[key]))), cache, false)
    else if track !in Tracks then EmbedStep(Ok(None), cache, false)
    else
      match fetch
      case FetchFailed => EmbedStep(Ok(None), cache, true)
      case Fetched(None) => EmbedStep(Err(KeyError), cache, true)
      case Fetched(Some(html)) => EmbedStep(Ok(Some(Markup(html))), cache[key := html], true)
  }

  /** `P3_LIVE_EMBED`: resolve the track, then show the on-site player to
      internal requesters and the cached or fetched public markup to
      everyone else. */
  function LiveEmbed(req: Request, track: string, event: Option<Event>,
                     cache: map<string, string>, fetch: FetchOutcome): (r: EmbedStep)
    ensures (track != "") == event.Some? ==> r == EmbedStep(Err(ValueError), cache, false)
    ensures IsInternal(req.remoteAddr) ==> r.cache == cache && !r.fetched
    ensures ResolveTrack(track, event).Err? ==>
              r == EmbedStep(Err(ResolveTrack(track, event).error), cache, false)
    ensures IsInternal(req.remoteAddr) && ResolveTrack(track, event).Ok? ==>
              var t := ResolveTrack(track, event).value;
              r.result == if t in Tracks then Ok(Some(OnSite(Player(t, LastSegment(Tracks[t].internal), InternalBase(t)))))
                          else Ok(None)
    ensures !IsInternal(req.remoteAddr) && ResolveTrack(track, event).Ok?
            && CacheKey(ResolveTrack(track, event).value) in cache ==>
              r == EmbedStep(Ok(Some(Markup(cache[CacheKey(ResolveTrack(track, event).value)]))), cache, false)
    ensures !IsInternal(req.remoteAddr) && ResolveTrack(track, event).Ok?
            && CacheKey(ResolveTrack(track, event).value) !in cache ==>
              var t := ResolveTrack(track, event).value;
              if t !in Tracks then r == EmbedStep(Ok(None), cache, false)
              else match fetch
                case FetchFailed => r == EmbedStep(Ok(None), cache, true)
                case Fetched(None) => r == EmbedStep(Err(KeyError), cache, true)
                case Fetched(Some(html)) => r == EmbedStep(Ok(Some(Markup(html))), cache[CacheKey(t) := html], true)
    ensures forall k :: k in cache ==> k in r.cache && r.cache[k] == cache[k]
    ensures r.cache != cache ==>
              r.fetched && ResolveTrack(track, event).Ok?
              && r.cache.Keys == cache.Keys + {CacheKey(ResolveTrack(track, event).value)}
  {
    match ResolveTrack(track, event)
    case Err(e) => EmbedStep(Err(e), cache, false)
    case Ok(t) =>
      if IsInternal(req.remoteAddr) then
        match InternalEmbed(t)
        case Err(e) => EmbedStep(Err(e), cache, false)
        case Ok(None) => EmbedStep(Ok(None), cache, false)
        case Ok(Some(p)) => EmbedStep(Ok(Some(OnSite(p))), cache, false)
      else
        ExternalEmbed(cache, t, fetch)
  }

  /** A keynote is always playable on site, on the keynote track's stream. */
  lemma KeynoteOnSite(req: Request, ev: Event, cache: map<string, string>, fetch: FetchOutcome)
    requires IsInternal(req.remoteAddr) && KeynoteTag in ev.tags
    ensures LiveEmbed(req, "", Some(ev), cache, fetch).result
            == Ok(Some(OnSite(Player(KeynoteTrack, "lasagne", "live.ep:1935/live/lasagne"))))
  {
    assert ResolveTrack("", Some(ev)) == Ok(KeynoteTrack);
    assert Tracks[KeynoteTrack].internal == "live/lasagne";
    assert "live/lasagne" == "live" + ['/'] + "lasagne";
    RSplitLastJoin("live", '/', "lasagne");
    assert InternalBase(KeynoteTrack) == "live.ep:1935/live/lasagne";
  }

  /** Two embed calls for the same track: once the first has stored or
      found markup, the second returns the same markup without asking the
      service again and leaves the cache as it is. */
  lemma SecondEmbedIsCached(req: Request, track: string, event: Option<Event>,
                            cache: map<string, string>, first: FetchOutcome, second: FetchOutcome)
    requires LiveEmbed(req, track, event, cache, first).result.Ok?
    requires LiveEmbed(req, track, event, cache, first).result.value.Some?
    requires LiveEmbed(req, track, event, cache, first).result.value.value.Markup?
    ensures var s1 := LiveEmbed(req, track, event, cache, first);
            var s2 := LiveEmbed(req, track, event, s1.cache, second);
            s2 == EmbedStep(s1.result, s1.cache, false)
  {
  }

  /** A failed request leaves nothing behind: the next call for the same
      track asks the service again. */
  lemma FailedFetchIsRetried(req: Request, track: string, event: Option<Event>,
                             cache: map<string, string>, second: FetchOutcome)
    requires LiveEmbed(req, track, event, cache, FetchFailed).fetched
    ensures var s1 := LiveEmbed(req, track, event, cache, FetchFailed);
            s1.result == Ok(None) && s1.cache == cache
            && LiveEmbed(req, track, event, s1.cache, second).fetched
  {
  }

  // ---------------------------------------------------------------------
  // A sequence of off-site embed calls sharing one cache

  /** One off-site embed call for a track, with the outcome the oEmbed
      request would have. */
  datatype EmbedCall = EmbedCall(track: string, fetch: FetchOutcome)

  /** The cache keys of the tracks a sequence of calls asks for. */
  function RequestedKeys(calls: seq<EmbedCall>): (keys: set<string>)
    ensures forall j :: 0 <= j < |calls| ==> CacheKey(calls[j].track) in keys
  {
    if |calls| == 0 then {}
    else RequestedKeys(calls[..|calls| - 1]) + {CacheKey(calls[|calls| - 1].track)}
  }

  lemma RequestedKeysGrow(calls: seq<EmbedCall>, i: nat)
    requires i < |calls|
    ensures RequestedKeys(calls[..i + 1]) == RequestedKeys(calls[..i]) + {CacheKey(calls[i].track)}
  {
    assert calls[..i + 1][..i] == calls[..i];
  }

  /** `later` keeps every entry of `earlier` unchanged. */
  predicate Extends(earlier: map<string, string>, later: map<string, string>)
  {
    forall k :: k in earlier ==> k in later && later[k] == earlier[k]
  }

  /** Any markup in `r` is the entry `cache` holds under `key`. */
  predicate ServedFrom(cache: map<string, string>, key: string, r: Result<Option<Embed>>)
  {
    r.Ok? && r.value.Some? ==> r.value.value.Markup? && key in cache && cache[key] == r.value.value.html
  }

  /** One off-site call keeps every entry, serves markup only from the cache
      it leaves behind, and changes the cache only by adding the track's
      key after asking the service. */
  lemma StepShape(cache: map<string, string>, track: string, fetch: FetchOutcome)
    ensures var st := ExternalEmbed(cache, track, fetch);
            && Extends(cache, st.cache)
            && ServedFrom(st.cache, CacheKey(track), st.result)
            && (st.cache != cache ==>
                  st.fetched && CacheKey(track) !in cache && st.cache.Keys == cache.Keys + {CacheKey(track)})
  {
  }

  lemma ServedFromLater(earlier: map<string, string>, later: map<string, string>,
                        key: string, r: Result<Option<Embed>>)
    requires ServedFrom(earlier, key, r) && Extends(earlier, later)
    ensures ServedFrom(later, key, r)
  {
  }

  /** What a serving loop keeps after its first `i` calls. */
  predicate SessionInvariant(cache0: map<string, string>, calls: seq<EmbedCall>, i: nat,
                             results: seq<Result<Option<Embed>>>, cache: map<string, string>)
  {
    && i <= |calls| && |results| == i
    && Extends(cache0, cache)
    && cache.Keys - cache0.Keys <= RequestedKeys(calls[..i])
    && forall j :: 0 <= j < i ==> ServedFrom(cache, CacheKey(calls[j].track), results[j])
  }

  /** Serving call `i` keeps the invariant. */
  lemma SessionStep(cache0: map<string, string>, calls: seq<EmbedCall>, i: nat,
                    results: seq<Result<Option<Embed>>>, cache: map<string, string>)
    requires SessionInvariant(cache0, calls, i, results, cache) && i < |calls|
    ensures var st := ExternalEmbed(cache, calls[i].track, calls[i].fetch);
            SessionInvariant(cache0, calls, i + 1, results + [st.result], st.cache)
  {
    var key := CacheKey(calls[i].track);
    var st := ExternalEmbed(cache, calls[i].track, calls[i].fetch);
    StepShape(cache, calls[i].track, calls[i].fetch);
    RequestedKeysGrow(calls, i);
    assert st.cache.Keys - cache0.Keys <= (cache.Keys - cache0.Keys) + {key};
    var results' := results + [st.result];
    forall j | 0 <= j < i + 1
      ensures ServedFrom(st.cache, CacheKey(calls[j].track), results'[j])
    {
      if j < i {
        ServedFromLater(cache, st.cache, CacheKey(calls[j].track), results[j]);
      }
    }
  }

  /** Serves the calls in order through the shared cache. Entries are never
      overwritten, each successful request adds exactly one new key (so
      `stores` counts the new keys), every new key belongs to a requested
      track, and any markup served is the markup the cache ends up holding
      for that track. */
  method ServeEmbeds(cache0: map<string, string>, calls: seq<EmbedCall>)
    returns (results: seq<Result<Option<Embed>>>, cache: map<string, string>, fetches: nat, stores: nat)
    ensures |results| == |calls|
    ensures Extends(cache0, cache)
    ensures cache0.Keys <= cache.Keys && stores == |cache| - |cache0|
    ensures stores <= fetches <= |calls|
    ensures cache.Keys - cache0.Keys <= RequestedKeys(calls)
    ensures forall j :: 0 <= j < |calls| ==> ServedFrom(cache, CacheKey(calls[j].track), results[j])
  {
    results := [];
    cache := cache0;
    fetches := 0;
    stores := 0;
    var i := 0;
    while i < |calls|
      invariant SessionInvariant(cache0, calls, i, results, cache)
      invariant cache0.Keys <= cache.Keys && stores == |cache| - |cache0|
      invariant stores <= fetches <= i
    {
      var step := ExternalEmbed(cache, calls[i].track, calls[i].fetch);
      StepShape(cache, calls[i].track, calls[i].fetch);
      SessionStep(cache0, calls, i, results, cache);
      if step.fetched {
        fetches := fetches + 1;
      }
      if step.cache != cache {
        assert |step.cache.Keys| == |cache.Keys| + 1;
        stores := stores + 1;
      }
      results := results + [step.result];
      cache := step.cache;
      i := i + 1;
    }
    assert calls[..|calls|] == calls;
  }
}

=== FILE: media_root.dfy ===
/**
 The start-up check that keeps `SECURE_MEDIA_ROOT` (files served through the
 application) out of `MEDIA_ROOT` (files served directly by the web server).
 The check takes `os.path.commonprefix` of the two paths, which compares
 character by character, and complains when that prefix starts with
 `MEDIA_ROOT`: an error in production, a warning in debug mode.
 */
module MediaRoot {
  import opened Base

  /** `os.path.commonprefix((a, b))`: the longest common leading text. */
  function CommonPrefix(a: string, b: string): (p: string)
    ensures StartsWith(a, p) && StartsWith(b, p)
    ensures |p| < |a| && |p| < |b| ==> a[|p|] != b[|p|]
  {
    if |a| == 0 || |b| == 0 || a[0] != b[0] then []
    else
      var p := [a[0]] + CommonPrefix(a[1..], b[1..]);
      assert a[..|p|] == [a[0]] + a[1..][..|p| - 1];
      assert b[..|p|] == [b[0]] + b[1..][..|p| - 1];
      p
  }

  /** What the check does at start-up. */
  datatype CheckOutcome = Pass | Warn | Raise(error: Error)

  /** The check as written: it fires exactly when `MEDIA_ROOT` is a
      character prefix of `SECURE_MEDIA_ROOT`; it raises `RuntimeError`
      unless in debug mode, where it only warns. */
  function SecureMediaCheck(mediaRoot: string, secureRoot: string, debug: bool): (o: CheckOutcome)
    ensures o != Pass <==> StartsWith(secureRoot, mediaRoot)
    ensures o == Raise(RuntimeError) <==> StartsWith(secureRoot, mediaRoot) && !debug
    ensures o == Warn <==> StartsWith(secureRoot, mediaRoot) && debug
  {
    var check := CommonPrefix(mediaRoot, secureRoot);
    CommonPrefixOfPrefix(mediaRoot, secureRoot);
    if StartsWith(check, mediaRoot) then
      assert secureRoot[..|mediaRoot|] == check[..|mediaRoot|];
      if !debug then Raise(RuntimeError) else Warn
    else
      Pass
  }

  /** When `a` is a prefix of `b`, their common prefix is all of `a`. */
  lemma CommonPrefixOfPrefix(a: string, b: string)
    ensures StartsWith(b, a) ==> CommonPrefix(a, b) == a
  {
  }

  /** `path` is the directory `dir` or lies below it, comparing whole path
      components. */
  predicate InsideDirectory(path: string, dir: string)
  {
    path == dir || StartsWith(path, if EndsWith(dir, "/") then dir else dir + "/")
  }

  /** The check as its comment describes it: complain only when the secure
      root is the media root or one of its sub-directories. It never flags
      a pair the check as written lets through, and when it flags, it does
      what the check as written does. */
  function SecureMediaCheckByPath(mediaRoot: string, secureRoot: string, debug: bool): (o: CheckOutcome)
    ensures o != Pass <==> InsideDirectory(secureRoot, mediaRoot)
    ensures o != Pass ==> o == SecureMediaCheck(mediaRoot, secureRoot, debug)
  {
    if InsideDirectory(secureRoot, mediaRoot) then
      assert StartsWith(secureRoot, mediaRoot) by {
        if secureRoot != mediaRoot && !EndsWith(mediaRoot, "/") {
          assert secureRoot[..|mediaRoot|] == (mediaRoot + "/")[..|mediaRoot|];
        }
      }
      if !debug then Raise(RuntimeError) else Warn
    else Pass
  }

  /** A sibling directory whose name merely extends the media root's name
      (`/srv/media` and `/srv/media-private`) is refused by the check as
      written although it is not inside the media root; the path-wise check
      lets it through. */
  lemma SiblingIsRefusedAsWritten(mediaRoot: string, extra: string, debug: bool)
    requires |extra| > 0 && extra[0] != '/' && !EndsWith(mediaRoot, "/")
    ensures SecureMediaCheck(mediaRoot, mediaRoot + extra, debug) != Pass
    ensures SecureMediaCheckByPath(mediaRoot, mediaRoot + extra, debug) == Pass
  {
  }

  /** A concrete pair showing the discrepancy. */
  lemma SiblingExample()
    ensures SecureMediaCheck("/srv/media", "/srv/media-private", false) == Raise(RuntimeError)
    ensures !InsideDirectory("/srv/media-private", "/srv/media")
  {
    assert "/srv/media-private" == "/srv/media" + "-private";
    SiblingIsRefusedAsWritten("/srv/media", "-private", false);
  }

  /** With the configured roots, `DATA_DIR/media_public` and
      `DATA_DIR/media_private`, neither check fires, whatever `DATA_DIR` is. */
  lemma ConfiguredRootsPass(dataDir: string, debug: bool)
    ensures SecureMediaCheck(dataDir + "/media_public", dataDir + "/media_private", debug) == Pass
    ensures SecureMediaCheckByPath(dataDir + "/media_public", dataDir + "/media_private", debug) == Pass
  {
    var media := dataDir + "/media_public";
    var secure := dataDir + "/media_private";
    assert media[|dataDir| + 8] == 'u' && secure[|dataDir| + 8] == 'r';
    assert !StartsWith(secure, media);
  }
}

=== FILE: records.dfy ===
/**
 The database records the conference settings functions read, as plain
 immutable values, and the conference constants they refer to. Querysets
 become sequences of records.
 */
module Records {
  import opened Base

  /** The conference edition whose speakers may always vote
      (`CONFERENCE_CONFERENCE`). */
  const CurrentConference: string := "ep2019"

  /** Editions whose ticket holders may vote (`CONFERENCE_TALK_VOTING_ELIGIBLE`),
      in the order the legacy rule walks them. */
  const VotingEligible: seq<string> := ["ep2015", "ep2016", "ep2017", "ep2018", "ep2019"]

  /** A purchase: whether it is complete, and its payment method (the
      order's `method`; `'admin'` for orders created by staff). */
  datatype Order = Order(complete: bool, payment: string)

  /** A priced ticket category of one conference edition. */
  datatype Fare = Fare(conference: string, ticketType: string, code: string)

  /** The per-ticket conference profile (`p3_conference`), which records the
      email the ticket is assigned to. */
  datatype TicketConference = TicketConference(assignedTo: string)

  /** A ticket: its fare, the order it was bought in, and its conference
      profile if one exists. */
  datatype Ticket = Ticket(fare: Fare, order: Order, p3: Option<TicketConference>)

  /** A registered user. `speaker` is the user's speaker record, absent for
      users who never registered as speakers. */
  datatype User = User(authenticated: bool, superuser: bool, email: string, speaker: Option<nat>)

  /** A speaker's link to a talk of some conference edition. */
  datatype TalkSpeaker = TalkSpeaker(talkConference: string, speaker: nat)

  /** A conference edition and whether its talk voting window is open now
      (the clock is read by the caller). */
  datatype Conference = Conference(code: string, votingOpen: bool)
}

=== FILE: tickets.dfy ===
/**
 `CONFERENCE_TICKETS`: the tickets of one conference edition bought in a
 completed order, optionally narrowed to one ticket type and to one fare
 code or fare-code prefix. A fare code ending in `%` asks for the codes that
 start with the rest of it; any other fare code asks for that exact code.
 The queryset becomes a sequence kept in input order.
 */
module Tickets {
  import opened Base
  import opened Records

  /** The fare-code test: `%` at the end means "starts with the rest". */
  predicate FareCodeMatches(code: string, fareCode: string)
  {
    if EndsWith(fareCode, "%") then StartsWith(code, fareCode[..|fareCode| - 1])
    else code == fareCode
  }

  /** Whether a ticket passes every filter the arguments switch on; an empty
      ticket type or fare code is Python-false and switches its filter off. */
  predicate Selected(t: Ticket, conf: string, ticketType: string, fareCode: string)
  {
    && t.fare.conference == conf
    && t.order.complete
    && (ticketType != "" ==> t.fare.ticketType == ticketType)
    && (fareCode != "" ==> FareCodeMatches(t.fare.code, fareCode))
  }

  /** The tickets selected by the filters, in input order. Every ticket
      returned is an input ticket of edition `conf` from a completed order
      that matches the ticket type and fare code when those are given, and
      every input ticket that does is returned. */
  function ConferenceTickets(tickets: seq<Ticket>, conf: string, ticketType: string, fareCode: string)
    : (r: seq<Ticket>)
    ensures |r| <= |tickets|
    ensures forall t :: t in r ==> t in tickets
    ensures forall t :: t in r ==> t.fare.conference == conf && t.order.complete
    ensures ticketType != "" ==> forall t :: t in r ==> t.fare.ticketType == ticketType
    ensures EndsWith(fareCode, "%") ==>
              forall t :: t in r ==> StartsWith(t.fare.code, fareCode[..|fareCode| - 1])
    ensures fareCode != "" && !EndsWith(fareCode, "%") ==> forall t :: t in r ==> t.fare.code == fareCode
    ensures forall t :: t in r ==> Selected(t, conf, ticketType, fareCode)
    ensures forall t :: t in tickets && Selected(t, conf, ticketType, fareCode) ==> t in r
  {
    if |tickets| == 0 then []
    else
      var rest := ConferenceTickets(tickets[1..], conf, ticketType, fareCode);
      assert forall t :: t in tickets ==> t == tickets[0] || t in tickets[1..];
      if Selected(tickets[0], conf, ticketType, fareCode) then [tickets[0]] + rest else rest
  }

  /** A trailing `%` turns the fare code into a prefix: the codes it
      matches are exactly the stem followed by any rest. */
  lemma WildcardMeansPrefix(code: string, fareCode: string)
    requires EndsWith(fareCode, "%")
    ensures var stem := fareCode[..|fareCode| - 1];
            FareCodeMatches(code, fareCode) <==> |stem| <= |code| && code == stem + code[|stem|..]
  {
  }

  /** A lone `%` matches every fare code. */
  lemma LoneWildcardMatchesAll(code: string)
    ensures FareCodeMatches(code, "%")
  {
  }

  /** Filtering is done ticket by ticket: the filter of a concatenation is
      the concatenation of the filters, so input order is kept. */
  lemma {:induction false} ConferenceTicketsAppend(a: seq<Ticket>, b: seq<Ticket>, conf: string,
                                                   ticketType: string, fareCode: string)
    ensures ConferenceTickets(a + b, conf, ticketType, fareCode)
            == ConferenceTickets(a, conf, ticketType, fareCode) + ConferenceTickets(b, conf, ticketType, fareCode)
  {
    if |a| == 0 {
      assert a + b == b;
    } else {
      assert (a + b)[1..] == a[1..] + b;
      ConferenceTicketsAppend(a[1..], b, conf, ticketType, fareCode);
    }
  }

  /** Filtering the result again with the same arguments changes nothing. */
  lemma {:induction false} ConferenceTicketsIdempotent(tickets: seq<Ticket>, conf: string,
                                                       ticketType: string, fareCode: string)
    ensures var once := ConferenceTickets(tickets, conf, ticketType, fareCode);
            ConferenceTickets(once, conf, ticketType, fareCode) == once
  {
    if |tickets| > 0 {
      var rest := ConferenceTickets(tickets[1..], conf, ticketType, fareCode);
      ConferenceTicketsIdempotent(tickets[1..], conf, ticketType, fareCode);
      if Selected(tickets[0], conf, ticketType, fareCode) {
        assert ([tickets[0]] + rest)[1..] == rest;
      }
    }
  }

  /** Giving a ticket type only narrows the result: every ticket returned
      with it is also returned without it. */
  lemma TicketTypeNarrows(tickets: seq<Ticket>, conf: string,
                            ticketType: string, fareCode: string)
    ensures forall t :: t in ConferenceTickets(tickets, conf, ticketType, fareCode)
                        ==> t in ConferenceTickets(tickets, conf, "", fareCode)
  {
  }
}

=== FILE: voting.dfy ===
/**
 Talk voting decisions: who may see the voting page
 (`CONFERENCE_VOTING_OPENED`) and who may cast votes
 (`CONFERENCE_VOTING_ALLOWED`).

 The ORM is replaced by sequences of records. The ticket manager query
 `TicketConference.objects.available(user, conf)` is not visible, so it is a
 parameter: an arbitrary predicate saying which tickets it would return for a
 user and an edition.
 */
module Voting {
  import opened Base
  import opened Records

  /** The unseen `available(user, conf)` query, as a predicate on tickets. */
  type Availability = (User, string, Ticket) -> bool

  // ---------------------------------------------------------------------
  // CONFERENCE_VOTING_OPENED

  /** Superusers may always open the voting page; everyone else only while
      the edition's voting window is open. */
  function VotingOpened(conf: Conference, user: User): (r: bool)
    ensures user.superuser ==> r
    ensures !user.superuser ==> (r <==> conf.votingOpen)
  {
    if user.superuser then true
    else if conf.votingOpen then true
    else false
  }

  // ---------------------------------------------------------------------
  // The rules of CONFERENCE_VOTING_ALLOWED, stated as facts about the data

  /** The user has a speaker record linked to a talk of the current edition. */
  predicate IsCurrentSpeaker(user: User, talks: seq<TalkSpeaker>)
  {
    exists i :: 0 <= i < |talks|
      && talks[i].talkConference == CurrentConference
      && user.speaker == Some(talks[i].speaker)
  }

  /** Some ticket of an eligible edition is assigned to the user's email. */
  predicate HoldsAssignedTicket(user: User, tickets: seq<Ticket>)
  {
    exists i :: 0 <= i < |tickets|
      && tickets[i].fare.conference in VotingEligible
      && tickets[i].p3 == Some(TicketConference(user.email))
  }

  /** The legacy test on one ticket: paid, or created by staff, and either
      without a conference profile or assigned to nobody or to this user. */
  predicate LegacyTicketCounts(t: Ticket, email: string)
  {
    && (t.order.complete || t.order.payment == "admin")
    && (t.p3.None? || t.p3.value.assignedTo == "" || t.p3.value.assignedTo == email)
  }

  /** For some eligible edition, the manager makes available to the user a
      ticket that passes the legacy test. */
  predicate HoldsLegacyTicket(user: User, tickets: seq<Ticket>, available: Availability)
  {
    exists c, i :: c in VotingEligible && 0 <= i < |tickets|
      && available(user, c, tickets[i]) && LegacyTicketCounts(tickets[i], user.email)
  }

  // ---------------------------------------------------------------------
  // CONFERENCE_VOTING_ALLOWED, as the source computes it

  /** `TalkSpeaker.objects.filter(talk__conference=..., speaker=...).count()` */
  function SpeakerTalkCount(talks: seq<TalkSpeaker>, speaker: nat): nat
  {
    CountWhere(talks, (ts: TalkSpeaker) => ts.talkConference == CurrentConference && ts.speaker == speaker)
  }

  /** Rule 3: the speaker lookup; a missing speaker record is caught and
      means "not a speaker". */
  function SpeakerRule(user: User, talks: seq<TalkSpeaker>): (r: bool)
    ensures r <==> IsCurrentSpeaker(user, talks)
  {
    match user.speaker
    case None => false
    case Some(id) =>
      var n := SpeakerTalkCount(talks, id);
      n > 0
  }

  /** Rule 4: count the conference profiles of eligible editions assigned to
      the user's email. */
  function AssignedRule(user: User, tickets: seq<Ticket>): (r: bool)
    ensures r <==> HoldsAssignedTicket(user, tickets)
  {
    CountWhere(tickets, (t: Ticket) =>
      t.fare.conference in VotingEligible && t.p3.Some? && t.p3.value.assignedTo == user.email) > 0
  }

  /** Rule 5: walk the editions in order, stopping at the first one for which
      the manager returns a ticket that passes the legacy test. */
  function LegacyRule(user: User, tickets: seq<Ticket>, available: Availability, confs: seq<string>)
    : (r: bool)
    ensures r <==> exists c, i :: c in confs && 0 <= i < |tickets|
                     && available(user, c, tickets[i]) && LegacyTicketCounts(tickets[i], user.email)
  {
    if |confs| == 0 then false
    else if CountWhere(tickets, (t: Ticket) => available(user, confs[0], t) && LegacyTicketCounts(t, user.email)) > 0 then
      assert (exists i :: 0 <= i < |tickets|
                && available(user, confs[0], tickets[i]) && LegacyTicketCounts(tickets[i], user.email));
      assert confs[0] in confs;
      true
    else
      assert !(exists i :: 0 <= i < |tickets|
                 && available(user, confs[0], tickets[i]) && LegacyTicketCounts(tickets[i], user.email));
      var r := LegacyRule(user, tickets, available, confs[1..]);
      forall c, i | c in confs && 0 <= i < |tickets|
                    && available(user, c, tickets[i]) && LegacyTicketCounts(tickets[i], user.email)
        ensures c in confs[1..]
      {
        assert c == confs[0] || c in confs[1..];
      }
      assert forall c :: c in confs[1..] ==> c in confs;
      r
  }

  /** The ladder, first match wins: anonymous users never vote (even if
      flagged superuser), superusers always do, then current speakers, then
      holders of an assigned eligible ticket, then the legacy rule. The
      result is exactly: authenticated, and one of the four granting rules
      holds. */
  function VotingAllowed(user: User, talks: seq<TalkSpeaker>, tickets: seq<Ticket>, available: Availability)
    : (r: bool)
    ensures !user.authenticated ==> !r
    ensures user.authenticated && user.superuser ==> r
    ensures r <==> user.authenticated
                   && (|| user.superuser
                       || IsCurrentSpeaker(user, talks)
                       || HoldsAssignedTicket(user, tickets)
                       || HoldsLegacyTicket(user, tickets, available))
  {
    if !user.authenticated then false
    else if user.superuser then true
    else if SpeakerRule(user, talks) then true
    else if AssignedRule(user, tickets) then true
    else LegacyRule(user, tickets, available, VotingEligible)
  }

  /** An authenticated superuser both sees the voting page and may vote,
      whatever the window and the data say. */
  lemma SuperuserMayAlwaysVote(user: User, conf: Conference, talks: seq<TalkSpeaker>,
                               tickets: seq<Ticket>, available: Availability)
    requires user.authenticated && user.superuser
    ensures VotingOpened(conf, user) && VotingAllowed(user, talks, tickets, available)
  {
  }

  /** More tickets or more talks never take the right to vote away. */
  lemma {:induction false} MoreDataNeverRevokes(user: User, talks: seq<TalkSpeaker>, moreTalks: seq<TalkSpeaker>,
                                                tickets: seq<Ticket>, moreTickets: seq<Ticket>,
                                                available: Availability)
    requires VotingAllowed(user, talks, tickets, available)
    ensures VotingAllowed(user, talks + moreTalks, tickets + moreTickets, available)
  {
    if IsCurrentSpeaker(user, talks) {
      var i :| 0 <= i < |talks| && talks[i].talkConference == CurrentConference
               && user.speaker == Some(talks[i].speaker);
      assert (talks + moreTalks)[i] == talks[i];
    } else if HoldsAssignedTicket(user, tickets) {
      var i :| 0 <= i < |tickets| && tickets[i].fare.conference in VotingEligible
               && tickets[i].p3 == Some(TicketConference(user.email));
      assert (tickets + moreTickets)[i] == tickets[i];
    } else if HoldsLegacyTicket(user, tickets, available) {
      var c, i :| c in VotingEligible && 0 <= i < |tickets|
                  && available(user, c, tickets[i]) && LegacyTicketCounts(tickets[i], user.email);
      assert (tickets + moreTickets)[i] == tickets[i];
    }
  }

  /** A ticket assigned to someone else's email grants nothing under the
      legacy rule, whoever made it available. */
  lemma ForeignAssignmentDoesNotCount(t: Ticket, email: string)
    requires t.p3.Some? && t.p3.value.assignedTo != "" && t.p3.value.assignedTo != email
    ensures !LegacyTicketCounts(t, email)
  {
  }

  /** A user with no speaker record, no tickets and no superuser flag may
      not vote. */
  lemma NoRecordsNoVote(user: User, talks: seq<TalkSpeaker>, available: Availability)
    requires !user.superuser && user.speaker.None?
    ensures !VotingAllowed(user, talks, [], available)
  {
  }
}
